=== FILE: README.md ===
# pycomcigan timetable decoder, modelled in Dafny

pycomcigan fetches a school's weekly timetable from the Comcigan service. The
service sends a snapshot of packed integer arrays. This project models the part
of `TimeTable.__init__` that turns that snapshot into a nested, navigable
timetable. It also models the homeroom roster, the `homeroom` accessor and the
rule `get_school_code` uses to pick one school among the search results.

The snapshot holds a teacher-name table, a subject-name table, a "current"
grid (this week as it will actually run) and an "original" grid (as planned).
It also holds a homeroom grid of teacher codes.

- `runtime.dfy` (`Runtime`): the Python behaviour the decoder relies on. This
  covers list indexing that raises `IndexError`, negative indices that count
  from the end, `range` lengths, and the "append inside a loop that may raise"
  pattern (`Collect`). Every exception is an `Err` result.
- `lectures.dfy` (`Lectures`): `Lecture`, `Period` (`TimeTableData` in the
  source) and the name tables with entry 0 cleared. A packed code `c` names
  subject `c // 1000` and teacher `c % 100`. A slot is replaced exactly when
  its current and original codes differ.
- `schedule.dfy` (`Schedule`): the grade → class → day → period builder. It
  has one function per loop of the source. Each function states what it
  builds in terms of the level below it.
- `schedule_facts.dfy` (`ScheduleFacts`): theorems stated directly over the
  two grids. They say when decoding raises, what shape the result has, and
  what each decoded period says. Worked examples are included.
- `homeroom.dfy` (`Homeroom`): the roster pass and `homeroom(grade, cls)`.
- `school.dfy` (`SchoolSearch`): the record-selection rule and the caller's
  checks on its markers.
- `timetable.dfy` (`TimeTables`): the constructor. It composes the week check,
  school selection, snapshot decoding and the roster.

Grid layout as the code reads it: `grid[grade][cls]` is the list
`[dayCount, row1, row2, ...]` (the `Week` datatype), or the empty list `[]`
(`Blank`), which has no day count. Each row is
`[periodCount, code1, code2, ...]`. Grade 0 and class 0 of the input are never
read. In the output, grade 0 is `[]`, each grade starts with an empty class 0,
and each class starts with an empty day 0. Period lists are not padded: entry
`k` of a day is period `k + 1`.

What the decoder does at its edges:

- A day has exactly as many periods as the original grid's row declares.
- Out-of-range reads raise `IndexError`. This applies to the name tables,
  an original class entry `[]`, a day missing from the current week, a
  period missing from a row, and `homeroom`. `IndexError` is the only error
  the decoder and `homeroom` raise. Negative indices (a negative code,
  `homeroom(0, c)` or `homeroom(g, 0)`) wrap around as in Python: class 0
  names the grade's last homeroom teacher.
- When the original code is 0 and the current code is not, the period
  carries `Some(Lecture(p, "", ""))` as its original lecture.
- A current period beyond the count the current row declares reads as code 0.
  A current row whose count covers the period but which is too short raises.
- A grade whose class list is empty appends nothing. Later grades then sit
  one place lower, and a later grade with a real class raises `IndexError`.

## Model

| member | source | states |
|---|---|---|
| Runtime.Collect | pycomcigan/timetable.py:136-157 | a `for` loop appending one result per step succeeds exactly when every step succeeds, and then holds each step's result, in order; when it raises, it raises some step's error |
| Lectures.ClearFirst | pycomcigan/timetable.py:116-119 | clearing entry 0 raises on an empty table; otherwise entry 0 becomes `""`, and the length and every other entry are kept |
| Lectures.NormalizeTables | pycomcigan/timetable.py:115-119 | both tables come out with entry 0 empty and every other entry unchanged; it raises exactly when either table is empty |
| Lectures.UnpackPack | pycomcigan/timetable.py:148-149 | `code // 1000` and `code % 100` recover the subject and teacher index a code was packed from, whatever its hundreds digit |
| Lectures.LectureOf | pycomcigan/timetable.py:148-154 | a code decodes exactly when `code // 1000` lies in `-len(sub_list) .. len(sub_list) - 1` and `code % 100` below `len(teacher_list)`; the lecture then names `teacher_list[code % 100]` and `sub_list[code // 1000]`, counted from the end for a negative code |
| Lectures.LectureOfNonNegative | pycomcigan/timetable.py:148-154 | a non-negative code decodes exactly when `code // 1000` and `code % 100` are within their tables, and then names those entries |
| Lectures.LectureOfPacked | pycomcigan/timetable.py:148-149 | a packed code decodes to the subject and teacher names it was packed from |
| Lectures.LectureOfZero | pycomcigan/timetable.py:116-119 | with entry 0 cleared, code 0 names the empty subject and the empty teacher |
| Lectures.DecodeSlot | pycomcigan/timetable.py:145-156 | subject and teacher are the lecture the current code names; `replaced` holds exactly when the codes differ; `original` is absent exactly when they are equal, and otherwise is the lecture the original code names; it raises exactly when a code that is read is out of range |
| Lectures.SameCodeNotReplaced | pycomcigan/timetable.py:150-151 | equal current and original codes never mark a substitution and carry no original lecture |
| Lectures.ReplacedEmptySlot | pycomcigan/timetable.py:150-155 | a lecture placed in a slot planned as code 0 is replaced and records the empty lecture as its original |
| Lectures.CancelledSlot | pycomcigan/timetable.py:145-155 | a current code of 0 in a planned slot gives an empty, replaced period that remembers the planned lecture |
| Schedule.CurrentCode | pycomcigan/timetable.py:140-143 | the current code is 0 when the period lies beyond the current row's count, and the row's entry otherwise; it raises exactly when the day, the count or that entry is missing |
| Schedule.SlotAt | pycomcigan/timetable.py:139-156 | a slot reads its original code from the original row and its current code from the current week, then decodes them; it raises exactly when one of those reads does |
| Schedule.DecodeDay | pycomcigan/timetable.py:138-157 | a day has as many periods as the original row declares (none for a negative count); entry `k` is period `k + 1`'s slot; it raises exactly when the row is empty or some slot raises |
| Schedule.DayAt | pycomcigan/timetable.py:136-138 | day `d` decodes the original week's row `d` and raises when that row is missing |
| Schedule.DecodeClass | pycomcigan/timetable.py:134-157 | a class is a placeholder day 0 followed by one entry per day the original week declares; it raises exactly when the original entry is `[]` or one of those days raises |
| Schedule.ClassAt | pycomcigan/timetable.py:134-136 | class `c` of grade `g` is decoded against `original[g][c]` and raises when that entry is missing |
| Schedule.DecodeClasses | pycomcigan/timetable.py:129-158 | a grade is a placeholder class 0 followed by one entry per further class entry of the current grid; it raises exactly when one of those classes does |
| Schedule.GradeStep | pycomcigan/timetable.py:123-159 | one pass of the grade loop: grade 0 appends `[]`; an empty class list appends nothing; otherwise it raises exactly when a grade with a real class finds `data` shifted by an earlier empty grade or its classes raise, and else appends the decoded grade |
| Schedule.GradesPrefix | pycomcigan/timetable.py:122-159 | after the grade loop over grades `0 .. n - 1`, the result has one entry per grade visited, less one for each empty grade among `1 .. n - 1`, and entry 0 is the empty placeholder |
| Schedule.GradesPrefixOk | pycomcigan/timetable.py:122-159 | the grade loop completes exactly when no empty grade precedes a grade with a real class and every grade with class entries decodes |
| Schedule.GradesPrefixAppends | pycomcigan/timetable.py:129-158 | a completed loop whose last grade has class entries is the loop one grade shorter with that grade's decoded classes appended |
| Schedule.GradeOfPrefix | pycomcigan/timetable.py:122-161 | when no grade is empty, result entry `g` is grade `g` decoded |
| Schedule.GradesPrefixContent | pycomcigan/timetable.py:122-161 | when no grade is empty, every result entry `g` is grade `g` decoded |
| Schedule.DecodeTimetable | pycomcigan/timetable.py:115-161 | the timetable has one entry per input grade, less one for each empty grade, and starts with the empty grade-0 placeholder |
| ScheduleFacts.SlotAtOk | pycomcigan/timetable.py:139-154 | a slot raises exactly when its original row lacks the period, the current week lacks the day or its count, the current row lacks a period its count covers, or a code used is out of range |
| ScheduleFacts.DayAtOk | pycomcigan/timetable.py:136-157 | a day raises exactly when the original week lacks the row, the row is empty, or one of its declared periods is unreadable |
| ScheduleFacts.DecodeClassOk | pycomcigan/timetable.py:134-157 | decoding a class raises exactly when one of its reads is out of range |
| ScheduleFacts.DecodeClassesOk | pycomcigan/timetable.py:129-157 | decoding a grade raises exactly when the original grid lacks one of its real classes, or one of their reads is out of range |
| ScheduleFacts.DecodeTimetableOk | pycomcigan/timetable.py:122-159 | decoding raises exactly when an empty grade precedes a grade with a real class, or the original grid lacks a real class or holds `[]` for it, or one of its reads is out of range |
| ScheduleFacts.BlankOriginalClassFails | pycomcigan/timetable.py:136 | an original class entry `[]` for a real class raises `IndexError` at its day count |
| ScheduleFacts.EmptyGradeThenClassFails | pycomcigan/timetable.py:129-134 | an empty class list followed later by a grade with a real class raises `IndexError` |
| ScheduleFacts.ShortCurrentWeekFails | pycomcigan/timetable.py:140 | a current week with fewer days than the original week declares raises once that day has a period |
| ScheduleFacts.DecodedGrades | pycomcigan/timetable.py:122-128 | without empty grades there is one output grade per input grade, and grade 0 is `[]` |
| ScheduleFacts.DecodeClassShape | pycomcigan/timetable.py:134-147 | a decoded class has day 0 empty, one day per declared day, and one period per period the day's original row declares |
| ScheduleFacts.DecodedClass | pycomcigan/timetable.py:129-158 | without empty grades, output grade `g` has a placeholder class 0 and one entry per class entry, and class `c` is `original[g][c]`'s class decoded |
| ScheduleFacts.DecodedClassShape | pycomcigan/timetable.py:129-147 | for a grid without empty grades, grade `g` of the result has one entry per class entry with class 0 empty, and each class is shaped by its original week |
| ScheduleFacts.DecodedClassSlot | pycomcigan/timetable.py:136-156 | entry `k` of day `d` of a decoded class is the slot of period `k + 1` read from the original row of day `d` |
| ScheduleFacts.SlotAtSays | pycomcigan/timetable.py:139-156 | a decoded slot has period number `p`, the subject and teacher its current code selects (0 beyond the current row's count), `replaced` exactly when the codes differ, and the original code's lecture exactly then |
| ScheduleFacts.DecodedPeriod | pycomcigan/timetable.py:138-156 | for a grid without empty grades, entry `k` of day `d` of class `c` of grade `g` is period `k + 1`. Its subject and teacher are `sub_list[code // 1000]` and `teacher_list[code % 100]` of the current code, which is 0 beyond the current row's count. It is replaced exactly when that code differs from the original code. Its original lecture is absent exactly when the codes are equal, and otherwise names the original code's subject and teacher |
| ScheduleFacts.UnchangedExample | pycomcigan/timetable.py:145-156 | 3005 planned and kept decodes to Math with Park, not replaced |
| ScheduleFacts.SubstitutedExample | pycomcigan/timetable.py:145-156 | 4010 in place of 3005 decodes to Science with Lee, replaced, with Math with Park as original |
| ScheduleFacts.CancelledExample | pycomcigan/timetable.py:145-156 | 0 in place of 3005 decodes to an empty, replaced period with Math with Park as original |
| Homeroom.Live | pycomcigan/timetable.py:165-168 | the cut point is the position of the first 0 or 255, or the list's end when there is none |
| Homeroom.RosterRow | pycomcigan/timetable.py:164-170 | a grade's list becomes the names `teacher_list[code]` of its codes before the first sentinel, in order, and nothing after; it raises exactly when one of those codes is out of range |
| Homeroom.SentinelCutsRow | pycomcigan/timetable.py:166-168 | whatever follows a sentinel has no effect on the roster |
| Homeroom.Rosters | pycomcigan/timetable.py:163-171 | the roster has one list per grade, each that grade's list after the pass; it raises exactly when some grade's does |
| Homeroom.HomeroomTeacher | pycomcigan/timetable.py:173-179 | `homeroom(g, c)` is roster entry `[g - 1][c - 1]` for grades and classes in range; a class between `1 - len` and 0 counts from the end of the grade's list; it raises `IndexError` for a class outside both ranges and for a grade past the end |
| Homeroom.HomeroomClassZero | pycomcigan/timetable.py:179 | `homeroom(g, 0)` is the grade's last homeroom teacher, through Python's index -1 |
| Homeroom.HomeroomGradeZero | pycomcigan/timetable.py:179 | `homeroom(0, c)` reads the last grade, through Python's index -1 |
| Homeroom.HomeroomOfGrid | pycomcigan/timetable.py:163-179 | `homeroom(g, c)` is the teacher named by code `c` of grade `g` for classes before the sentinel, and raises for classes at or after it |
| Homeroom.RosterRowExample | pycomcigan/timetable.py:163-170 | the list `[12, 7, 255, 9]` yields teachers 12 and 7 only |
| SchoolSearch.FirstWhere | pycomcigan/timetable.py:217-223 | the search loops return the first record that matches, and none exactly when no record matches |
| SchoolSearch.SelectSchool | pycomcigan/timetable.py:213-225 | no record gives the "not found" marker (-2); one record is taken whatever the codes; among several, the first record with a matching non-zero school code wins over the first with a matching non-zero region code; with neither, the "several" marker (-1) |
| SchoolSearch.CheckChoice | pycomcigan/timetable.py:91-95 | the markers become the "several schools" and "not found" errors; a chosen record whose region code is -1 raises "several schools" and one whose region code is -2 raises "not found" |
| TimeTables.CheckWeek | pycomcigan/timetable.py:81-82 | the week number is accepted exactly when it is 0 or 1 |
| TimeTables.Decode | pycomcigan/timetable.py:115-171 | decoding a snapshot succeeds exactly when both name tables are non-empty and both the timetable and the roster build against the cleared tables, and then yields them; its only error is `IndexError` |
| TimeTables.Open | pycomcigan/timetable.py:70-171 | a bad week number raises ValueError first; an empty search result raises "not found", and no match among several raises "several". A timetable is built exactly when the week number is 0 or 1, the chosen record gets past the marker checks and the snapshot fetched for its school code decodes; past those checks, the only error is `IndexError`. It is for the record the selection rule chose, carries the snapshot's metadata unchanged, and holds that snapshot's decoded timetable and roster |
| TimeTables.HomeroomOf | pycomcigan/timetable.py:173-179 | `homeroom(g, c)` of a built timetable is roster entry `[g - 1][c - 1]`; a class between `1 - len` and 0 counts from the end of the grade's list; it raises `IndexError` for a class past its grade's list, a class before `1 - len` or a grade past the roster |
| TimeTables.OpenedHomeroom | pycomcigan/timetable.py:163-179 | on a built timetable, `homeroom(g, c)` is the cleared teacher table's entry for code `c` of grade `g` before the sentinel, and raises at or after it |

## Left out

- The network requests are parameters: `get_code` (timetable.py:195-206),
  the school-name search (210-212) and the snapshot request (97-101). The
  search result enters `Open` as a list of records. The snapshot enters as a
  function from school code and week number to the decoded payload. The
  regex scraping of field-name suffixes, JSON parsing and the base64 request
  token are inside those calls.
- The `int()` coercion of the codes and its ValueError (84-87) are not
  modelled, because the model's codes are already integers.
- Inputs of the wrong Python type (a grid cell that is not a list, a code that
  is not an integer) raise TypeError in the source. They are not
  representable in the model's datatypes.
- `__str__` and `__repr__` (24-28, 45-49, 181-192) are left out because they
  only format text.
- `pycomcigan/search_school.py`, its stale copy under `build/` and `setup.py`
  are left out. They are an HTTP wrapper and packaging.
- TimeTables.Open: the `school_name` argument appears only through the
  search results it produced, and the name stored is the record's name, as
  in the source.
- Decoding is a pure function, so decoding the same snapshot twice gives
  equal results by construction. No lemma states this.

=== FILE: homeroom.dfy ===
/**
 The homeroom roster: each grade's list of homeroom-teacher codes, cut at its
 first sentinel and mapped through the teacher table, and the accessor that
 reads one class's homeroom teacher from it.
 */
module Homeroom {
  import opened Runtime

  /** Codes 0 and 255 end a grade's list; they name no teacher. */
  predicate IsSentinel(code: int)
  {
    code == 0 || code == 255
  }

  /** The number of codes before the first sentinel, or all of them when
      there is none. */
  function Live(codes: seq<int>): (n: nat)
    ensures n <= |codes|
    ensures forall i :: 0 <= i < n ==> !IsSentinel(codes[i])
    ensures n < |codes| ==> IsSentinel(codes[n])
  {
    if |codes| == 0 || IsSentinel(codes[0]) then 0 else 1 + Live(codes[1..])
  }

  /** One grade's list after the roster pass: each code is replaced by the
      teacher it names until the first sentinel, where the list is cut. */
  function RosterRow(codes: seq<int>, teachers: seq<string>): (r: Result<seq<string>>)
    ensures r.Ok? <==> forall i :: 0 <= i < Live(codes) ==> Index(teachers, codes[i]).Ok?
    ensures r.Ok? ==> |r.value| == Live(codes)
    ensures r.Ok? ==> forall i :: 0 <= i < |r.value| ==> Index(teachers, codes[i]) == Ok(r.value[i])
    ensures r.Err? ==> r.error == IndexError
  {
    if |codes| == 0 || IsSentinel(codes[0]) then Ok([])
    else
      var name :- Index(teachers, codes[0]);
      var rest :- RosterRow(codes[1..], teachers);
      assert forall i :: 1 <= i < Live(codes) ==> codes[i] == codes[1..][i - 1];
      Ok([name] + rest)
  }

  /** Whatever follows a sentinel never reaches the roster. */
  lemma {:induction false} SentinelCutsRow(codes: seq<int>, tail: seq<int>, teachers: seq<string>)
    requires |codes| > 0 && IsSentinel(codes[|codes| - 1])
    ensures RosterRow(codes + tail, teachers) == RosterRow(codes, teachers)
  {
    if !IsSentinel(codes[0]) {
      assert |codes| > 1;
      assert (codes + tail)[1..] == codes[1..] + tail;
      SentinelCutsRow(codes[1..], tail, teachers);
    }
  }

  /** Step `g` of the roster pass, for `g` in `1 .. len(grid)`. */
  function RowStep(grid: seq<seq<int>>, teachers: seq<string>): int --> Result<seq<string>>
  {
    g requires 1 <= g <= |grid| => RosterRow(grid[g - 1], teachers)
  }

  /** The roster steps all succeed exactly when every grade's row reads. */
  lemma RowStepsOk(grid: seq<seq<int>>, teachers: seq<string>)
    ensures Collect(RowStep(grid, teachers), |grid|).Ok? <==>
      forall g :: 0 <= g < |grid| ==> RosterRow(grid[g], teachers).Ok?
  {
    var step := RowStep(grid, teachers);
    if forall g :: 0 <= g < |grid| ==> RosterRow(grid[g], teachers).Ok? {
      forall g | 1 <= g <= |grid|
        ensures step(g).Ok?
      {
        assert RosterRow(grid[g - 1], teachers).Ok?;
      }
    }
    if Collect(step, |grid|).Ok? {
      forall g | 0 <= g < |grid|
        ensures RosterRow(grid[g], teachers).Ok?
      {
        assert step(g + 1).Ok?;
      }
    }
  }

  /** Entry `g` of the collected rosters is grade `g + 1`'s row. */
  lemma RowStepsCollected(grid: seq<seq<int>>, teachers: seq<string>)
    ensures var r := Collect(RowStep(grid, teachers), |grid|);
      r.Ok? ==> forall g :: 0 <= g < |grid| ==> RosterRow(grid[g], teachers) == Ok(r.value[g])
  {
    var step := RowStep(grid, teachers);
    var r := Collect(step, |grid|);
    if r.Ok? {
      forall g | 0 <= g < |grid|
        ensures RosterRow(grid[g], teachers) == Ok(r.value[g])
      {
        assert step(g + 1) == Ok(r.value[g]);
      }
    }
  }

  /** The roster pass over every grade, in order: it raises on the first
      code that names no teacher. */
  function Rosters(grid: seq<seq<int>>, teachers: seq<string>): (r: Result<seq<seq<string>>>)
    ensures r.Ok? <==> forall g :: 0 <= g < |grid| ==> RosterRow(grid[g], teachers).Ok?
    ensures r.Ok? ==> |r.value| == |grid|
    ensures r.Ok? ==> forall g :: 0 <= g < |grid| ==> RosterRow(grid[g], teachers) == Ok(r.value[g])
    ensures r.Err? ==> r.error == IndexError
  {
    RowStepsOk(grid, teachers);
    RowStepsCollected(grid, teachers);
    Collect(RowStep(grid, teachers), |grid|)
  }

  /** Python's `self._homeroom_teacher[grade - 1][cls - 1]`. */
  function HomeroomTeacher(roster: seq<seq<string>>, grade: int, cls: int): (r: Result<string>)
    ensures 1 <= grade <= |roster| && 1 <= cls <= |roster[grade - 1]| ==>
      r == Ok(roster[grade - 1][cls - 1])
    ensures 1 <= grade <= |roster| && 1 - |roster[grade - 1]| <= cls <= 0 ==>
      r == Ok(roster[grade - 1][|roster[grade - 1]| + cls - 1])
    ensures 1 <= grade <= |roster| && (cls > |roster[grade - 1]| || cls < 1 - |roster[grade - 1]|) ==>
      r == Err(IndexError)
    ensures grade > |roster| || grade < 1 - |roster| ==> r == Err(IndexError)
  {
    var row :- Index(roster, grade - 1);
    Index(row, cls - 1)
  }

  /** Grade 0 is not rejected: the index -1 reads the last grade. */
  lemma HomeroomGradeZero(roster: seq<seq<string>>, cls: int)
    requires |roster| > 0
    ensures HomeroomTeacher(roster, 0, cls) == HomeroomTeacher(roster, |roster|, cls)
  {
  }

  /** Class 0 is not rejected either: the index -1 reads the grade's last
      homeroom teacher. */
  lemma HomeroomClassZero(roster: seq<seq<string>>, grade: int)
    requires 1 <= grade <= |roster| && |roster[grade - 1]| > 0
    ensures HomeroomTeacher(roster, grade, 0) == HomeroomTeacher(roster, grade, |roster[grade - 1]|)
  {
  }

  /** The homeroom teacher of class `cls` of grade `grade` is the teacher
      named by that class's code, for every class before the grade's first
      sentinel; asking for a class at or after it raises. */
  lemma HomeroomOfGrid(grid: seq<seq<int>>, teachers: seq<string>, grade: int, cls: int)
    requires Rosters(grid, teachers).Ok?
    requires 1 <= grade <= |grid| && cls >= 1
    ensures cls <= Live(grid[grade - 1]) ==>
      HomeroomTeacher(Rosters(grid, teachers).value, grade, cls) == Index(teachers, grid[grade - 1][cls - 1])
    ensures cls > Live(grid[grade - 1]) ==>
      HomeroomTeacher(Rosters(grid, teachers).value, grade, cls) == Err(IndexError)
  {
    var roster := Rosters(grid, teachers).value;
    assert RosterRow(grid[grade - 1], teachers) == Ok(roster[grade - 1]);
  }

  /** The roster of the grade list `[12, 7, 255, 9]` names teachers 12 and 7
      and never consults the 9 behind the sentinel. */
  lemma RosterRowExample()
    ensures RosterRow([12, 7, 255, 9],
      ["", "A", "B", "C", "D", "E", "F", "Kim", "H", "I", "J", "K", "Lee"]) == Ok(["Lee", "Kim"])
  {
    var teachers := ["", "A", "B", "C", "D", "E", "F", "Kim", "H", "I", "J", "K", "Lee"];
    assert [12, 7, 255, 9][1..] == [7, 255, 9];
    assert [7, 255, 9][1..] == [255, 9];
    assert teachers[7] == "Kim" && teachers[12] == "Lee";
    assert RosterRow([255, 9], teachers) == Ok([]);
    assert Index(teachers, 7) == Ok("Kim");
    assert ["Kim"] + [] == ["Kim"];
    assert RosterRow([7, 255, 9], teachers) == Ok(["Kim"]);
    assert ["Lee"] + ["Kim"] == ["Lee", "Kim"];
  }
}

=== FILE: lectures.dfy ===
/**
 Lectures and periods: the name tables, the packed period code and the
 decoding of one period slot, including substitution detection.
 */
module Lectures {
  import opened Runtime

  /** One lecture: the period it occupies, its subject and its teacher. */
  datatype Lecture = Lecture(period: int, subject: string, teacher: string)

  /** One decoded period of a day. `replaced` flags a substitution and
      `original` then describes the lecture that was planned. */
  datatype Period = Period(
    period: int,
    subject: string,
    teacher: string,
    replaced: bool,
    original: Option<Lecture>)

  /** The subject-name and teacher-name tables a packed code indexes. */
  datatype Tables = Tables(subjects: seq<string>, teachers: seq<string>)

  /** Both tables have their entry 0 cleared to the empty name. */
  predicate Normalized(tables: Tables)
  {
    && |tables.subjects| > 0 && tables.subjects[0] == ""
    && |tables.teachers| > 0 && tables.teachers[0] == ""
  }

  /** `names[0] = ""` on a list received from the server: raises on an empty
      list and otherwise leaves every other entry as it was. */
  function ClearFirst(names: seq<string>): (r: Result<seq<string>>)
    ensures r.Ok? <==> |names| > 0
    ensures r.Ok? ==> |r.value| == |names| && r.value[0] == ""
    ensures r.Ok? ==> forall i :: 1 <= i < |names| ==> r.value[i] == names[i]
    ensures r.Err? ==> r.error == IndexError
  {
    if |names| == 0 then Err(IndexError) else Ok(names[0 := ""])
  }

  /** Clears entry 0 of both tables, teachers first. */
  function NormalizeTables(subjects: seq<string>, teachers: seq<string>): (r: Result<Tables>)
    ensures r.Ok? <==> |subjects| > 0 && |teachers| > 0
    ensures r.Ok? ==> Normalized(r.value)
    ensures r.Ok? ==> |r.value.subjects| == |subjects| && |r.value.teachers| == |teachers|
    ensures r.Ok? ==> forall i :: 1 <= i < |subjects| ==> r.value.subjects[i] == subjects[i]
    ensures r.Ok? ==> forall i :: 1 <= i < |teachers| ==> r.value.teachers[i] == teachers[i]
    ensures r.Err? ==> r.error == IndexError
  {
    var t :- ClearFirst(teachers);
    var s :- ClearFirst(subjects);
    Ok(Tables(s, t))
  }

  /** The subject index of a packed code, Python's `code // 1000`. Dafny's
      division by a positive constant rounds down as Python's does. */
  function SubjectIndex(code: int): int
  {
    code / 1000
  }

  /** The teacher index of a packed code, Python's `code % 100`. */
  function TeacherIndex(code: int): int
  {
    code % 100
  }

  /** The code the upstream service stores for subject `s`, teacher `t` and
      hundreds digit `h`, which the decoder ignores. */
  function Pack(s: int, h: int, t: int): int
  {
    s * 1000 + h * 100 + t
  }

  /** Packing and then unpacking gives back the subject and teacher index. */
  lemma UnpackPack(s: int, h: int, t: int)
    requires 0 <= h < 10 && 0 <= t < 100
    ensures SubjectIndex(Pack(s, h, t)) == s
    ensures TeacherIndex(Pack(s, h, t)) == t
  {
  }

  /** Both indices of a packed code select an entry of their table, with
      Python's indexing: the subject index may count from the end, and the
      teacher index, a remainder by 100, is never negative. */
  predicate CodeReadable(code: int, tables: Tables)
  {
    && -|tables.subjects| <= SubjectIndex(code) < |tables.subjects|
    && TeacherIndex(code) < |tables.teachers|
  }

  /** The lecture a packed code names in the given period: the subject and
      teacher names its two indices select, raising when either is out of range. */
  function LectureOf(period: int, code: int, tables: Tables): (r: Result<Lecture>)
    ensures r.Ok? <==> CodeReadable(code, tables)
    ensures r.Ok? ==> r.value.period == period && r.value.teacher == tables.teachers[code % 100]
    ensures r.Ok? && code >= 0 ==> r.value.subject == tables.subjects[code / 1000]
    ensures r.Ok? && code < 0 ==> r.value.subject == tables.subjects[|tables.subjects| + code / 1000]
    ensures r.Err? ==> r.error == IndexError
  {
    var subject :- Index(tables.subjects, SubjectIndex(code));
    var teacher :- Index(tables.teachers, TeacherIndex(code));
    Ok(Lecture(period, subject, teacher))
  }

  /** A non-negative code decodes exactly when both of its indices fall
      inside their tables, and then names the entries at those indices. */
  lemma LectureOfNonNegative(period: int, code: int, tables: Tables)
    requires code >= 0
    ensures LectureOf(period, code, tables).Ok? <==>
      code / 1000 < |tables.subjects| && code % 100 < |tables.teachers|
    ensures LectureOf(period, code, tables).Ok? ==>
      LectureOf(period, code, tables).value ==
        Lecture(period, tables.subjects[code / 1000], tables.teachers[code % 100])
  {
  }

  /** A packed code decodes to the names its subject and teacher were packed from. */
  lemma LectureOfPacked(period: int, s: int, h: int, t: int, tables: Tables)
    requires 0 <= s < |tables.subjects|
    requires 0 <= h < 10 && 0 <= t < 100 && t < |tables.teachers|
    ensures LectureOf(period, Pack(s, h, t), tables) ==
      Ok(Lecture(period, tables.subjects[s], tables.teachers[t]))
  {
    UnpackPack(s, h, t);
  }

  /** Code 0 names the empty subject and the empty teacher. */
  lemma LectureOfZero(period: int, tables: Tables)
    requires Normalized(tables)
    ensures LectureOf(period, 0, tables) == Ok(Lecture(period, "", ""))
  {
  }

  /** One period slot given its current and its originally planned code. The
      current code supplies subject and teacher; the slot is replaced exactly
      when the codes differ, and only then carries the original lecture. */
  function DecodeSlot(period: int, current: int, original: int, tables: Tables): (r: Result<Period>)
    ensures r.Ok? <==>
      LectureOf(period, current, tables).Ok? &&
      (current != original ==> LectureOf(period, original, tables).Ok?)
    ensures r.Ok? ==> r.value.period == period
    ensures r.Ok? ==>
      LectureOf(period, current, tables) == Ok(Lecture(period, r.value.subject, r.value.teacher))
    ensures r.Ok? ==> (r.value.replaced <==> current != original)
    ensures r.Ok? ==> (r.value.original.None? <==> current == original)
    ensures r.Ok? && r.value.original.Some? ==>
      LectureOf(period, original, tables) == Ok(r.value.original.value)
    ensures r.Err? ==> r.error == IndexError
  {
    var now :- LectureOf(period, current, tables);
    var before :- (if current == original then Ok(None)
                   else var lecture :- LectureOf(period, original, tables); Ok(Some(lecture)));
    Ok(Period(period, now.subject, now.teacher, current != original, before))
  }

  /** Equal codes never mark a substitution, whatever the code. */
  lemma SameCodeNotReplaced(period: int, code: int, tables: Tables)
    requires LectureOf(period, code, tables).Ok?
    ensures DecodeSlot(period, code, code, tables).Ok?
    ensures !DecodeSlot(period, code, code, tables).value.replaced
    ensures DecodeSlot(period, code, code, tables).value.original == None
  {
  }

  /** A lecture placed into a slot that was planned empty still records an
      original lecture, the empty one, rather than no original at all. */
  lemma ReplacedEmptySlot(period: int, current: int, tables: Tables)
    requires Normalized(tables) && current != 0
    requires LectureOf(period, current, tables).Ok?
    ensures DecodeSlot(period, current, 0, tables).Ok?
    ensures DecodeSlot(period, current, 0, tables).value.replaced
    ensures DecodeSlot(period, current, 0, tables).value.original == Some(Lecture(period, "", ""))
  {
    LectureOfZero(period, tables);
  }

  /** A cancelled lecture (current code 0) is an empty, replaced slot that
      still names the planned lecture. */
  lemma CancelledSlot(period: int, original: int, tables: Tables)
    requires Normalized(tables) && original != 0
    requires LectureOf(period, original, tables).Ok?
    ensures DecodeSlot(period, 0, original, tables).Ok?
    ensures DecodeSlot(period, 0, original, tables).value.subject == ""
    ensures DecodeSlot(period, 0, original, tables).value.teacher == ""
    ensures DecodeSlot(period, 0, original, tables).value.replaced
    ensures DecodeSlot(period, 0, original, tables).value.original ==
      Some(LectureOf(period, original, tables).value)
  {
    LectureOfZero(period, tables);
  }
}

=== FILE: runtime.dfy ===
/**
 The pieces of Python's runtime behaviour that the timetable decoder relies on:
 list indexing that raises (or wraps around for negative indices), `range`
 lengths, and the "append inside a loop that may raise" pattern.
 */
module Runtime {

  /** The exceptions the timetable constructor can raise. */
  datatype Error =
    | IndexError       // a list index out of range
    | InvalidWeek      // ValueError: the week number is neither 0 nor 1
    | SeveralSchools   // RuntimeError: the school search matched no single school
    | SchoolNotFound   // RuntimeError: the school search returned nothing

  datatype Option<+T> = None | Some(value: T)

  /** A computation that either produces a value or raises one of the errors above. */
  datatype Result<+T> = Ok(value: T) | Err(error: Error) {

    predicate IsFailure() {
      Err?
    }

    function PropagateFailure<U>(): Result<U>
      requires Err?
    {
      Err(error)
    }

    function Extract(): T
      requires Ok?
    {
      value
    }
  }

  /** Python's `s[i]`: a negative index counts from the end of the list, and
      an index outside `-len(s) .. len(s) - 1` raises IndexError. */
  function Index<T>(s: seq<T>, i: int): Result<T>
  {
    if 0 <= i < |s| then Ok(s[i])
    else if -|s| <= i < 0 then Ok(s[|s| + i])
    else Err(IndexError)
  }

  /** The number of values `range(1, n + 1)` produces. */
  function RangeLen(n: int): nat
  {
    if n < 0 then 0 else n
  }

  /** The list built by `for i in range(1, n + 1): acc.append(f(i))` when
      each step may raise: it succeeds exactly when every step succeeds, and
      then holds the step results in order, step `i` at position `i - 1`. */
  function Collect<T>(f: int --> Result<T>, n: int): (r: Result<seq<T>>)
    requires forall i :: 1 <= i <= n ==> f.requires(i)
    ensures r.Ok? <==> forall i :: 1 <= i <= n ==> f(i).Ok?
    ensures r.Ok? ==> |r.value| == RangeLen(n)
    ensures r.Ok? ==> forall i :: 1 <= i <= n ==> f(i) == Ok(r.value[i - 1])
    ensures r.Err? ==> exists i :: 1 <= i <= n && f(i) == Err(r.error)
    decreases RangeLen(n)
  {
    if n <= 0 then Ok([])
    else
      var prefix :- Collect(f, n - 1);
      var last :- f(n);
      Ok(prefix + [last])
  }
}

=== FILE: schedule.dfy ===
/**
 The schedule builder: walks the grade -> class -> day -> period hierarchy of
 the "current" and the "original" grid and assembles the nested timetable.
 Grade 0, class 0 and day 0 of the output are placeholders; the period lists
 are not padded, so the entry at position k describes period k + 1.
 */
module Schedule {
  import opened Runtime
  import opened Lectures

  /** A class's week as a grid stores it: the Python list
      `[dayCount, row1, row2, ...]`, or `Blank` for the empty list `[]`,
      which has no day count. Each row is itself the list
      `[periodCount, code1, code2, ...]`. */
  datatype Week =
    | Blank
    | Week(dayCount: int, days: seq<seq<int>>)

  /** The rows of a week; the empty list has none. */
  function Days(week: Week): seq<seq<int>>
  {
    if week.Blank? then [] else week.days
  }

  /** Python's `week[0]`, which raises on the empty list. */
  function DayCount(week: Week): (r: Result<int>)
    ensures r.Ok? <==> week.Week?
    ensures r.Ok? ==> r.value == week.dayCount
  {
    if week.Blank? then Err(IndexError) else Ok(week.dayCount)
  }

  /** `grid[grade][class]`; grade 0 and class 0 of every grade are never read. */
  type Grid = seq<seq<Week>>

  type Day = seq<Period>
  type ClassSchedule = seq<Day>
  type Grade = seq<ClassSchedule>
  /** `timetable[grade][class][day][k]` */
  type Timetable = seq<Grade>

  /** Python's `week[day]` for a day number of at least 1. */
  function Row(week: Week, day: int): Result<seq<int>>
    requires day >= 1
  {
    if day <= |Days(week)| then Ok(Days(week)[day - 1]) else Err(IndexError)
  }

  /** The current code of a slot: 0 when the period lies beyond the count
      the current row declares, the stored code otherwise. */
  function CurrentCode(week: Week, day: int, period: int): (r: Result<int>)
    requires day >= 1 && period >= 1
    ensures r.Ok? <==>
      day <= |Days(week)| && |Days(week)[day - 1]| > 0 &&
      (period <= Days(week)[day - 1][0] ==> period < |Days(week)[day - 1]|)
    ensures r.Ok? && period > Days(week)[day - 1][0] ==> r.value == 0
    ensures r.Ok? && period <= Days(week)[day - 1][0] ==> r.value == Days(week)[day - 1][period]
    ensures r.Err? ==> r.error == IndexError
  {
    var row :- Row(week, day);
    var count :- Index(row, 0);
    if count < period then Ok(0) else Index(row, period)
  }

  /** Period `period` of day `day`, from the class's current week and the
      original row of that day. */
  function SlotAt(current: Week, originalRow: seq<int>, day: int, period: int, tables: Tables): (r: Result<Period>)
    requires day >= 1 && period >= 1
    ensures r.Ok? <==>
      period < |originalRow| && CurrentCode(current, day, period).Ok? &&
      DecodeSlot(period, CurrentCode(current, day, period).value, originalRow[period], tables).Ok?
    ensures r.Ok? ==>
      r == DecodeSlot(period, CurrentCode(current, day, period).value, originalRow[period], tables)
    ensures r.Err? ==> r.error == IndexError
  {
    var originalCode :- Index(originalRow, period);
    var currentCode :- CurrentCode(current, day, period);
    DecodeSlot(period, currentCode, originalCode, tables)
  }

  /** One day: as many periods as the original row declares, the k-th of
      them describing period k + 1. */
  function DecodeDay(current: Week, originalRow: seq<int>, day: int, tables: Tables): (r: Result<Day>)
    requires day >= 1
    ensures r.Ok? <==>
      |originalRow| > 0 &&
      forall p :: 1 <= p <= originalRow[0] ==> SlotAt(current, originalRow, day, p, tables).Ok?
    ensures r.Ok? ==> |r.value| == RangeLen(originalRow[0])
    ensures r.Ok? ==> forall p :: 1 <= p <= |r.value| ==>
      SlotAt(current, originalRow, day, p, tables) == Ok(r.value[p - 1]) && r.value[p - 1].period == p
    ensures r.Err? ==> r.error == IndexError
  {
    var count :- Index(originalRow, 0);
    var slot := p requires p >= 1 => SlotAt(current, originalRow, day, p, tables);
    assert forall p :: 1 <= p <= count ==> slot(p) == SlotAt(current, originalRow, day, p, tables);
    var r := Collect(slot, count);
    assert r.Ok? ==> forall p :: 1 <= p <= |r.value| ==> slot(p) == Ok(r.value[p - 1]);
    r
  }

  /** Day `day` of a class: the original week's row for it, decoded. */
  function DayAt(current: Week, original: Week, day: int, tables: Tables): (r: Result<Day>)
    requires day >= 1
    ensures r.Ok? <==> day <= |Days(original)| && DecodeDay(current, Days(original)[day - 1], day, tables).Ok?
    ensures r.Ok? ==> r == DecodeDay(current, Days(original)[day - 1], day, tables)
    ensures r.Err? ==> r.error == IndexError
  {
    var row :- Row(original, day);
    DecodeDay(current, row, day, tables)
  }

  /** One class: a placeholder day 0 followed by as many days as the
      original week declares. An original entry `[]` has no day count and
      raises. */
  function DecodeClass(current: Week, original: Week, tables: Tables): (r: Result<ClassSchedule>)
    ensures r.Ok? <==>
      original.Week? && forall d :: 1 <= d <= original.dayCount ==> DayAt(current, original, d, tables).Ok?
    ensures r.Ok? ==> original.Week? && |r.value| == RangeLen(original.dayCount) + 1 && r.value[0] == []
    ensures r.Ok? ==> forall d :: 1 <= d < |r.value| ==> DayAt(current, original, d, tables) == Ok(r.value[d])
    ensures r.Err? ==> r.error == IndexError
  {
    var count :- DayCount(original);
    var dayAt := d requires d >= 1 => DayAt(current, original, d, tables);
    assert forall d :: 1 <= d <= count ==> dayAt(d) == DayAt(current, original, d, tables);
    var days :- Collect(dayAt, count);
    var r: ClassSchedule := [[]] + days;
    assert forall d :: 1 <= d < |r| ==> r[d] == days[d - 1];
    Ok(r)
  }

  /** Python's `grid[grade][cls]` for the original grid. */
  function OriginalWeek(original: Grid, grade: int, cls: int): Result<Week>
  {
    var classes :- Index(original, grade);
    Index(classes, cls)
  }

  /** Class `cls` of a grade, decoded against the original grid. */
  function ClassAt(grade: seq<Week>, original: Grid, g: int, cls: int, tables: Tables): (r: Result<ClassSchedule>)
    requires g >= 1 && cls >= 1
    ensures r.Ok? <==>
      cls < |grade| && g < |original| && cls < |original[g]| &&
      DecodeClass(grade[cls], original[g][cls], tables).Ok?
    ensures r.Ok? ==> r == DecodeClass(grade[cls], original[g][cls], tables)
    ensures r.Err? ==> r.error == IndexError
  {
    var week :- Index(grade, cls);
    var originalWeek :- OriginalWeek(original, g, cls);
    DecodeClass(week, originalWeek, tables)
  }

  /** One grade with at least one class entry: a placeholder class 0 and
      then every further class entry, decoded. */
  function DecodeClasses(grade: seq<Week>, original: Grid, g: int, tables: Tables): (r: Result<Grade>)
    requires |grade| > 0 && g >= 1
    ensures r.Ok? <==> forall c :: 1 <= c < |grade| ==> ClassAt(grade, original, g, c, tables).Ok?
    ensures r.Ok? ==> |r.value| == |grade| && r.value[0] == []
    ensures r.Ok? ==> forall c :: 1 <= c < |grade| ==> ClassAt(grade, original, g, c, tables) == Ok(r.value[c])
    ensures r.Err? ==> r.error == IndexError
  {
    var classAt := c requires c >= 1 => ClassAt(grade, original, g, c, tables);
    assert forall c :: 1 <= c < |grade| ==> classAt(c) == ClassAt(grade, original, g, c, tables);
    var classes :- Collect(classAt, |grade| - 1);
    var r: Grade := [[]] + classes;
    assert forall c :: 1 <= c < |r| ==> r[c] == classes[c - 1];
    Ok(r)
  }

  /** The number of grades among `1 .. n - 1` whose class list is empty. */
  function EmptyGrades(current: Grid, n: nat): (r: nat)
    requires n <= |current|
    ensures n > 0 ==> r < n
    ensures r == 0 <==> forall g :: 1 <= g < n ==> |current[g]| > 0
  {
    if n <= 1 then 0
    else EmptyGrades(current, n - 1) + (if |current[n - 1]| == 0 then 1 else 0)
  }

  /** Some grade with an empty class list comes before a grade with a real class. */
  predicate Misaligned(current: Grid, n: nat)
    requires n <= |current|
  {
    exists g, h :: 1 <= g < h < n && |current[g]| == 0 && |current[h]| > 1
  }

  /** One pass of the grade loop over the list `data` built so far. Grade 0
      appends an empty placeholder; an empty class list appends nothing, so
      later grades no longer sit at their own index; and appending a class to
      `data[g]` then raises. */
  function GradeStep(current: Grid, original: Grid, tables: Tables, g: nat, data: Timetable): (r: Result<Timetable>)
    requires g < |current| && |data| <= g
    ensures g == 0 ==> r == Ok(data + [[]])
    ensures g > 0 && |current[g]| == 0 ==> r == Ok(data)
    ensures g > 0 && |current[g]| > 0 ==>
      (r.Err? <==> (|current[g]| > 1 && |data| < g) || DecodeClasses(current[g], original, g, tables).Err?)
    ensures g > 0 && |current[g]| > 0 && r.Ok? ==>
      r == Ok(data + [DecodeClasses(current[g], original, g, tables).value])
    ensures r.Err? ==> r.error == IndexError
  {
    if g == 0 then Ok(data + [[]])
    else if |current[g]| == 0 then Ok(data)
    else if |current[g]| > 1 && |data| < g then Err(IndexError)
    else
      var classes :- DecodeClasses(current[g], original, g, tables);
      Ok(data + [classes])
  }

  /** The list `data` after the grade loop has visited grades `0 .. n - 1`. */
  function GradesPrefix(current: Grid, original: Grid, tables: Tables, n: nat): (r: Result<Timetable>)
    requires n <= |current|
    ensures r.Ok? ==> |r.value| + EmptyGrades(current, n) == n
    ensures r.Ok? && n > 0 ==> r.value[0] == []
    ensures r.Err? ==> r.error == IndexError
    decreases n
  {
    if n == 0 then Ok([])
    else
      var data :- GradesPrefix(current, original, tables, n - 1);
      GradeStep(current, original, tables, n - 1, data)
  }

  /** The whole timetable built from the current and the original grid. */
  function DecodeTimetable(current: Grid, original: Grid, tables: Tables): (r: Result<Timetable>)
    ensures r.Ok? ==> |r.value| + EmptyGrades(current, |current|) == |current|
    ensures r.Ok? && |current| > 0 ==> r.value[0] == []
    ensures r.Err? ==> r.error == IndexError
  {
    GradesPrefix(current, original, tables, |current|)
  }

  /** A grade with an empty class list among `1 .. g - 1` is what makes
      `EmptyGrades` positive. */
  lemma EmptyGradesPositive(current: Grid, g: nat)
    requires g <= |current|
    ensures EmptyGrades(current, g) > 0 <==> exists e :: 1 <= e < g && |current[e]| == 0
  {
  }

  /** Extending the grade loop by grade `g` makes the grid misaligned exactly
      when it already was, or grade `g` has a real class and an earlier grade
      had none. */
  lemma MisalignedStep(current: Grid, g: nat)
    requires 1 <= g < |current|
    ensures Misaligned(current, g + 1) <==>
      Misaligned(current, g) || (|current[g]| > 1 && EmptyGrades(current, g) > 0)
  {
    EmptyGradesPositive(current, g);
  }

  /** Every grade among `1 .. n - 1` that has a class list decodes. */
  predicate GradesDecode(current: Grid, original: Grid, tables: Tables, n: nat)
    requires n <= |current|
  {
    forall g :: 1 <= g < n && |current[g]| > 0 ==> DecodeClasses(current[g], original, g, tables).Ok?
  }

  /** Extending `GradesDecode` by grade `g` adds grade `g`'s own decode. */
  lemma GradesDecodeStep(current: Grid, original: Grid, tables: Tables, g: nat)
    requires g < |current|
    ensures GradesDecode(current, original, tables, g + 1) <==>
      GradesDecode(current, original, tables, g) &&
      (1 <= g && |current[g]| > 0 ==> DecodeClasses(current[g], original, g, tables).Ok?)
  {
  }

  /** The grade loop over grades `0 .. n - 1` completes exactly when no empty
      grade precedes a grade with a real class and every grade with a class
      list decodes. */
  lemma {:induction false} GradesPrefixOk(current: Grid, original: Grid, tables: Tables, n: nat)
    requires n <= |current|
    ensures GradesPrefix(current, original, tables, n).Ok? <==>
      !Misaligned(current, n) && GradesDecode(current, original, tables, n)
  {
    if n > 1 {
      var g := n - 1;
      GradesPrefixOk(current, original, tables, g);
      MisalignedStep(current, g);
      GradesDecodeStep(current, original, tables, g);
      var prev := GradesPrefix(current, original, tables, g);
      if prev.Ok? {
        assert |prev.value| < g <==> EmptyGrades(current, g) > 0;
        var step := GradeStep(current, original, tables, g, prev.value);
        assert GradesPrefix(current, original, tables, n) == step;
        if |current[g]| == 0 {
          assert step.Ok?;
        } else if |current[g]| > 1 && |prev.value| < g {
          assert step.Err?;
        } else {
          assert step.Ok? <==> DecodeClasses(current[g], original, g, tables).Ok?;
        }
      } else {
        assert GradesPrefix(current, original, tables, n).Err?;
      }
    }
  }

  /** A completed loop over grades `0 .. n - 1` with grade `n - 1` not empty
      extends the loop over `0 .. n - 2` by that grade, decoded. */
  lemma GradesPrefixAppends(current: Grid, original: Grid, tables: Tables, n: nat) returns (prev: Timetable)
    requires 2 <= n <= |current| && |current[n - 1]| > 0
    requires GradesPrefix(current, original, tables, n).Ok?
    ensures GradesPrefix(current, original, tables, n - 1) == Ok(prev)
    ensures DecodeClasses(current[n - 1], original, n - 1, tables).Ok?
    ensures GradesPrefix(current, original, tables, n).value ==
      prev + [DecodeClasses(current[n - 1], original, n - 1, tables).value]
  {
    prev := GradesPrefix(current, original, tables, n - 1).value;
  }

  /** When no grade has an empty class list, grade `g` of the loop's result
      is that grade decoded. */
  lemma {:induction false} GradeOfPrefix(current: Grid, original: Grid, tables: Tables, n: nat, g: nat)
    requires n <= |current| && 1 <= g < n
    requires GradesPrefix(current, original, tables, n).Ok?
    requires EmptyGrades(current, n) == 0
    ensures g < |GradesPrefix(current, original, tables, n).value|
    ensures DecodeClasses(current[g], original, g, tables) == Ok(GradesPrefix(current, original, tables, n).value[g])
  {
    assert EmptyGrades(current, n - 1) == 0 && |current[n - 1]| > 0;
    var prev := GradesPrefixAppends(current, original, tables, n);
    var data := GradesPrefix(current, original, tables, n).value;
    var classes := DecodeClasses(current[n - 1], original, n - 1, tables).value;
    assert |prev| == n - 1 && data == prev + [classes];
    if g < n - 1 {
      GradeOfPrefix(current, original, tables, n - 1, g);
      assert data[g] == prev[g];
    } else {
      assert g == n - 1 && data[g] == classes;
      assert DecodeClasses(current[g], original, g, tables) == Ok(classes);
    }
  }

  /** When no grade has an empty class list, every grade `g` of the result
      is that grade decoded. */
  lemma {:induction false} GradesPrefixContent(current: Grid, original: Grid, tables: Tables, n: nat)
    requires n <= |current|
    requires GradesPrefix(current, original, tables, n).Ok?
    requires EmptyGrades(current, n) == 0
    ensures forall g :: 1 <= g < n ==>
      DecodeClasses(current[g], original, g, tables) == Ok(GradesPrefix(current, original, tables, n).value[g])
  {
    forall g | 1 <= g < n
      ensures DecodeClasses(current[g], original, g, tables) == Ok(GradesPrefix(current, original, tables, n).value[g])
    {
      GradeOfPrefix(current, original, tables, n, g);
    }
  }
}

=== FILE: schedule_facts.dfy ===
/**
 Facts about the whole decoded timetable, stated directly over the two input
 grids and the name tables: when decoding raises, the shape of the result,
 and what every decoded period says.
 */
module ScheduleFacts {
  import opened Runtime
  import opened Lectures
  import opened Schedule

  /** Every read made for period `period` of day `day` succeeds: the original
      row holds the period, the current week holds the day and its count, the
      current row holds the period whenever its count covers it, and the codes
      used index the name tables. */
  predicate SlotReadable(current: Week, originalRow: seq<int>, day: int, period: int, tables: Tables)
    requires day >= 1 && period >= 1
  {
    && period < |originalRow|
    && day <= |Days(current)|
    && var now := Days(current)[day - 1];
    && |now| > 0
    && (period <= now[0] ==> period < |now|)
    && var code := if period <= now[0] then now[period] else 0;
    && CodeReadable(code, tables)
    && (code != originalRow[period] ==> CodeReadable(originalRow[period], tables))
  }

  /** Every read made for the periods an original row declares succeeds. */
  predicate RowReadable(current: Week, originalRow: seq<int>, day: int, tables: Tables)
    requires day >= 1 && |originalRow| > 0
  {
    forall p :: 1 <= p <= originalRow[0] ==> SlotReadable(current, originalRow, day, p, tables)
  }

  /** Every read made for day `day` of a class succeeds. */
  predicate DayReadable(current: Week, original: Week, day: int, tables: Tables)
    requires day >= 1
  {
    && day <= |Days(original)|
    && |Days(original)[day - 1]| > 0
    && RowReadable(current, Days(original)[day - 1], day, tables)
  }

  /** Every read made for a class succeeds: its original entry has a day
      count, and every day that count covers is readable. */
  predicate ClassReadable(current: Week, original: Week, tables: Tables)
  {
    && original.Week?
    && forall d :: 1 <= d <= original.dayCount ==> DayReadable(current, original, d, tables)
  }

  lemma SlotAtOk(current: Week, originalRow: seq<int>, day: int, period: int, tables: Tables)
    requires day >= 1 && period >= 1
    ensures SlotAt(current, originalRow, day, period, tables).Ok? <==>
      SlotReadable(current, originalRow, day, period, tables)
  {
  }

  lemma DayAtOk(current: Week, original: Week, day: int, tables: Tables)
    requires day >= 1
    ensures DayAt(current, original, day, tables).Ok? <==> DayReadable(current, original, day, tables)
  {
    if day <= |Days(original)| && |Days(original)[day - 1]| > 0 {
      var row := Days(original)[day - 1];
      forall p | 1 <= p <= row[0]
        ensures SlotAt(current, row, day, p, tables).Ok? <==> SlotReadable(current, row, day, p, tables)
      {
        SlotAtOk(current, row, day, p, tables);
      }
    }
  }

  /** Decoding a class raises exactly when one of its reads is out of range. */
  lemma DecodeClassOk(current: Week, original: Week, tables: Tables)
    ensures DecodeClass(current, original, tables).Ok? <==> ClassReadable(current, original, tables)
  {
    if original.Week? {
      forall d | 1 <= d <= original.dayCount
        ensures DayAt(current, original, d, tables).Ok? <==> DayReadable(current, original, d, tables)
      {
        DayAtOk(current, original, d, tables);
      }
    }
  }

  /** Every real class of a grade is present in the original grid and
      readable. */
  predicate GradeReadable(grade: seq<Week>, original: Grid, g: nat, tables: Tables)
  {
    forall c :: 1 <= c < |grade| ==>
      g < |original| && c < |original[g]| && ClassReadable(grade[c], original[g][c], tables)
  }

  /** Decoding a grade's classes raises exactly when some real class is
      missing from the original grid, or one of its reads is out of range. */
  lemma DecodeClassesOk(grade: seq<Week>, original: Grid, g: nat, tables: Tables)
    requires |grade| > 0 && g >= 1
    ensures DecodeClasses(grade, original, g, tables).Ok? <==> GradeReadable(grade, original, g, tables)
  {
    forall c | 1 <= c < |grade|
      ensures ClassAt(grade, original, g, c, tables).Ok? <==>
        g < |original| && c < |original[g]| && ClassReadable(grade[c], original[g][c], tables)
    {
      if g < |original| && c < |original[g]| {
        DecodeClassOk(grade[c], original[g][c], tables);
      }
    }
  }

  /** Decoding the timetable raises exactly when the grid is misaligned by an
      empty grade, or some real class is missing from the original grid, or
      one of its reads is out of range. */
  lemma DecodeTimetableOk(current: Grid, original: Grid, tables: Tables)
    ensures DecodeTimetable(current, original, tables).Ok? <==>
      && !Misaligned(current, |current|)
      && forall g, c :: 1 <= g < |current| && 1 <= c < |current[g]| ==>
           g < |original| && c < |original[g]| &&
           ClassReadable(current[g][c], original[g][c], tables)
  {
    GradesPrefixOk(current, original, tables, |current|);
    forall g | 1 <= g < |current| && |current[g]| > 0
      ensures DecodeClasses(current[g], original, g, tables).Ok? <==> GradeReadable(current[g], original, g, tables)
    {
      DecodeClassesOk(current[g], original, g, tables);
    }
  }

  /** A grade whose class list is empty shifts every later grade down one
      place, so a later grade with a real class raises. */
  lemma EmptyGradeThenClassFails(current: Grid, original: Grid, tables: Tables, g: nat, h: nat)
    requires 1 <= g < h < |current|
    requires |current[g]| == 0 && |current[h]| > 1
    ensures DecodeTimetable(current, original, tables) == Err(IndexError)
  {
    GradesPrefixOk(current, original, tables, |current|);
  }

  /** An original class entry `[]` for a real class raises: it has no day
      count to read. */
  lemma BlankOriginalClassFails(current: Grid, original: Grid, tables: Tables, g: nat, c: nat)
    requires 1 <= g < |current| && 1 <= c < |current[g]|
    requires g < |original| && c < |original[g]| && original[g][c] == Blank
    ensures DecodeTimetable(current, original, tables) == Err(IndexError)
  {
    DecodeTimetableOk(current, original, tables);
  }

  /** A current week with fewer days than the original week declares raises
      as soon as that day has a period. */
  lemma ShortCurrentWeekFails(current: Grid, original: Grid, tables: Tables, g: nat, c: nat, d: nat)
    requires 1 <= g < |current| && 1 <= c < |current[g]|
    requires g < |original| && c < |original[g]| && original[g][c].Week?
    requires 1 <= d <= original[g][c].dayCount && d <= |Days(original[g][c])|
    requires |Days(original[g][c])[d - 1]| > 1 && Days(original[g][c])[d - 1][0] >= 1
    requires |Days(current[g][c])| < d
    ensures DecodeTimetable(current, original, tables).Err?
  {
    DecodeTimetableOk(current, original, tables);
    assert !SlotReadable(current[g][c], Days(original[g][c])[d - 1], d, 1, tables);
    assert !DayReadable(current[g][c], original[g][c], d, tables);
  }

  /** Without empty grades the result has one entry per input grade, with
      grade 0 an empty placeholder. */
  lemma DecodedGrades(current: Grid, original: Grid, tables: Tables)
    requires |current| > 0
    requires forall g :: 1 <= g < |current| ==> |current[g]| > 0
    requires DecodeTimetable(current, original, tables).Ok?
    ensures |DecodeTimetable(current, original, tables).value| == |current|
    ensures DecodeTimetable(current, original, tables).value[0] == []
  {
  }

  /** The shape of a decoded class against its original week: a placeholder
      day 0, one day per day the week declares, and one period per period the
      row of that day declares. */
  predicate ClassShaped(schedule: ClassSchedule, original: Week)
  {
    && original.Week?
    && |schedule| == RangeLen(original.dayCount) + 1
    && schedule[0] == []
    && forall d :: 1 <= d < |schedule| ==> DayShaped(schedule, original, d)
  }

  /** Day `d` of a decoded class has one period per period its original row declares. */
  predicate DayShaped(schedule: ClassSchedule, original: Week, d: int)
    requires 1 <= d < |schedule|
  {
    d <= |Days(original)| && |Days(original)[d - 1]| > 0 &&
    |schedule[d]| == RangeLen(Days(original)[d - 1][0])
  }

  lemma DecodeClassShape(current: Week, original: Week, tables: Tables)
    requires DecodeClass(current, original, tables).Ok?
    ensures ClassShaped(DecodeClass(current, original, tables).value, original)
  {
    var schedule := DecodeClass(current, original, tables).value;
    forall d | 1 <= d < |schedule|
      ensures DayShaped(schedule, original, d)
    {
      assert DayAt(current, original, d, tables) == Ok(schedule[d]);
      assert DecodeDay(current, Days(original)[d - 1], d, tables) == Ok(schedule[d]);
    }
    assert schedule[0] == [];
  }

  /** In a grid without empty grades, class `c` of grade `g` of the result
      is that class decoded against its original entry, and its grade has a
      placeholder class 0 and one entry per class entry. */
  lemma DecodedClass(current: Grid, original: Grid, tables: Tables, g: nat, c: nat)
    requires forall e :: 1 <= e < |current| ==> |current[e]| > 0
    requires DecodeTimetable(current, original, tables).Ok?
    requires 1 <= g < |current| && 1 <= c < |current[g]|
    ensures g < |original| && c < |original[g]|
    ensures var t := DecodeTimetable(current, original, tables).value;
      && g < |t| && |t[g]| == |current[g]| && t[g][0] == []
      && DecodeClass(current[g][c], original[g][c], tables) == Ok(t[g][c])
  {
    var t := DecodeTimetable(current, original, tables).value;
    GradesPrefixContent(current, original, tables, |current|);
    assert DecodeClasses(current[g], original, g, tables) == Ok(t[g]);
    assert ClassAt(current[g], original, g, c, tables) == Ok(t[g][c]);
  }

  /** The shape of one decoded class of a grid without empty grades: its
      grade has a placeholder class 0 and one entry per class entry, and the
      class itself is shaped by its original week. */
  lemma DecodedClassShape(current: Grid, original: Grid, tables: Tables, g: nat, c: nat)
    requires forall e :: 1 <= e < |current| ==> |current[e]| > 0
    requires DecodeTimetable(current, original, tables).Ok?
    requires 1 <= g < |current| && 1 <= c < |current[g]|
    ensures g < |original| && c < |original[g]|
    ensures var t := DecodeTimetable(current, original, tables).value;
      && g < |t| && |t[g]| == |current[g]| && t[g][0] == [] && c < |t[g]|
      && ClassShaped(t[g][c], original[g][c])
  {
    DecodedClass(current, original, tables, g, c);
    DecodeClassShape(current[g][c], original[g][c], tables);
  }

  /** Entry `k` of day `d` of a decoded class is the slot of period `k + 1`
      read from that day's original row. */
  lemma DecodedClassSlot(current: Week, original: Week, tables: Tables, d: nat, k: nat)
    requires DecodeClass(current, original, tables).Ok?
    requires var schedule := DecodeClass(current, original, tables).value;
      1 <= d < |schedule| && k < |schedule[d]|
    ensures 1 <= d <= |Days(original)| && k + 1 < |Days(original)[d - 1]|
    ensures SlotAt(current, Days(original)[d - 1], d, k + 1, tables) ==
      Ok(DecodeClass(current, original, tables).value[d][k])
  {
    var schedule := DecodeClass(current, original, tables).value;
    assert DayAt(current, original, d, tables) == Ok(schedule[d]);
    var row := Days(original)[d - 1];
    assert DecodeDay(current, row, d, tables) == Ok(schedule[d]);
    assert SlotAt(current, row, d, k + 1, tables) == Ok(schedule[d][k]);
  }

  /** What a decoded slot says, in terms of the raw rows: its period number,
      the names the current code selects (0 beyond the current row's count),
      and whether, and from which code, it was replaced. */
  predicate SlotSays(slot: Period, current: Week, row: seq<int>, day: int, p: int, tables: Tables)
    requires day >= 1 && p >= 1
  {
    && p < |row|
    && day <= |Days(current)| && |Days(current)[day - 1]| > 0
    && var now := Days(current)[day - 1];
    && (p <= now[0] ==> p < |now|)
    && var code := if p <= now[0] then now[p] else 0;
    && slot.period == p
    && Index(tables.subjects, code / 1000) == Ok(slot.subject)
    && Index(tables.teachers, code % 100) == Ok(slot.teacher)
    && (slot.replaced <==> code != row[p])
    && (slot.original.None? <==> code == row[p])
    && (slot.original.Some? ==>
          && slot.original.value.period == p
          && Index(tables.subjects, row[p] / 1000) == Ok(slot.original.value.subject)
          && Index(tables.teachers, row[p] % 100) == Ok(slot.original.value.teacher))
  }

  /** A slot that decodes says what its raw codes say. */
  lemma SlotAtSays(current: Week, row: seq<int>, day: int, p: int, tables: Tables, slot: Period)
    requires day >= 1 && p >= 1
    requires SlotAt(current, row, day, p, tables) == Ok(slot)
    ensures SlotSays(slot, current, row, day, p, tables)
  {
    var code := CurrentCode(current, day, p).value;
    assert DecodeSlot(p, code, row[p], tables) == Ok(slot);
  }

  /** What the k-th entry of a decoded day says. Its period number is k + 1.
      Its subject and teacher are the names the current code selects, where
      the current code is 0 beyond the count the current row declares. It is
      replaced exactly when the current code differs from the original code,
      and then, and only then, carries the lecture the original code names. */
  lemma DecodedPeriod(current: Grid, original: Grid, tables: Tables, g: nat, c: nat, d: nat, k: nat)
    requires forall e :: 1 <= e < |current| ==> |current[e]| > 0
    requires DecodeTimetable(current, original, tables).Ok?
    requires 1 <= g < |current| && 1 <= c < |current[g]|
    requires var t := DecodeTimetable(current, original, tables).value;
      g < |t| && c < |t[g]| && 1 <= d < |t[g][c]| && k < |t[g][c][d]|
    ensures g < |original| && c < |original[g]| && 1 <= d <= |Days(original[g][c])|
    ensures SlotSays(DecodeTimetable(current, original, tables).value[g][c][d][k],
                     current[g][c], Days(original[g][c])[d - 1], d, k + 1, tables)
  {
    var t := DecodeTimetable(current, original, tables).value;
    DecodedClass(current, original, tables, g, c);
    DecodedClassSlot(current[g][c], original[g][c], tables, d, k);
    SlotAtSays(current[g][c], Days(original[g][c])[d - 1], d, k + 1, tables, t[g][c][d][k]);
  }

  /** Name tables for the worked examples: subject 3 is Math, subject 4
      Science, teacher 5 Park and teacher 10 Lee. */
  function ExampleTables(): Tables
  {
    Tables(["", "Korean", "English", "Math", "Science"],
           ["", "Choi", "Jung", "Kang", "Yoon", "Park", "Han", "Lim", "Oh", "Seo", "Lee"])
  }

  /** Grade 1, class 1, day 1, period 1 planned as 3005 (Math with Park)
      and now showing `now`, on a one-class, one-day, one-period grid. */
  function ExampleTimetable(now: int): Result<Timetable>
  {
    var placeholder := Week(0, []);
    DecodeTimetable([[], [placeholder, Week(1, [[1, now]])]],
                    [[], [placeholder, Week(1, [[1, 3005]])]],
                    ExampleTables())
  }

  /** The example's one real grade decodes to its one period, wrapped in the
      class and day placeholders. */
  lemma ExampleGradeDecodes(now: int, period: Period)
    requires SlotAt(Week(1, [[1, now]]), [1, 3005], 1, 1, ExampleTables()) == Ok(period)
    ensures DecodeClasses([Week(0, []), Week(1, [[1, now]])],
                          [[], [Week(0, []), Week(1, [[1, 3005]])]], 1, ExampleTables()) ==
      Ok([[], [[], [period]]])
  {
    var tables := ExampleTables();
    var current := Week(1, [[1, now]]);
    var original := Week(1, [[1, 3005]]);
    var day := DecodeDay(current, [1, 3005], 1, tables);
    assert day.Ok? && |day.value| == 1 && day.value[0] == period;
    assert day.value == [period];
    assert DayAt(current, original, 1, tables) == Ok([period]);
    var schedule := DecodeClass(current, original, tables);
    assert schedule.Ok? && |schedule.value| == 2 && schedule.value[1] == [period];
    assert schedule.value == [[], [period]];
    var originalGrid: Grid := [[], [Week(0, []), original]];
    assert ClassAt([Week(0, []), current], originalGrid, 1, 1, tables) == Ok([[], [period]]);
    var grade := DecodeClasses([Week(0, []), current], originalGrid, 1, tables);
    assert grade.Ok? && |grade.value| == 2 && grade.value[1] == [[], [period]];
    assert grade.value == [[], [[], [period]]];
  }

  /** The example grid's grade 0 only adds the grade placeholder. */
  lemma ExampleGradeZero(currentGrid: Grid, originalGrid: Grid, tables: Tables)
    requires |currentGrid| >= 1
    ensures GradesPrefix(currentGrid, originalGrid, tables, 1) == Ok([[]])
  {
    assert GradesPrefix(currentGrid, originalGrid, tables, 0) == Ok([]);
    var first: Timetable := [] + [[]];
    assert first == [[]];
  }

  /** The example grid's grade 1 appends its decoded classes. */
  lemma ExampleGradeOne(currentGrid: Grid, originalGrid: Grid, tables: Tables, grade: Grade)
    requires |currentGrid| == 2 && |currentGrid[1]| == 2
    requires DecodeClasses(currentGrid[1], originalGrid, 1, tables) == Ok(grade)
    ensures GradesPrefix(currentGrid, originalGrid, tables, 2) == Ok([[], grade])
  {
    ExampleGradeZero(currentGrid, originalGrid, tables);
    assert GradeStep(currentGrid, originalGrid, tables, 1, [[]]) == Ok([[]] + [grade]);
    assert [[]] + [grade] == [[], grade];
  }

  /** The example grid decodes to its one period, wrapped in the placeholders. */
  lemma ExampleDecodes(now: int, period: Period)
    requires SlotAt(Week(1, [[1, now]]), [1, 3005], 1, 1, ExampleTables()) == Ok(period)
    ensures ExampleTimetable(now) == Ok([[], [[], [[], [period]]]])
  {
    var currentGrid: Grid := [[], [Week(0, []), Week(1, [[1, now]])]];
    var originalGrid: Grid := [[], [Week(0, []), Week(1, [[1, 3005]])]];
    ExampleGradeDecodes(now, period);
    ExampleGradeOne(currentGrid, originalGrid, ExampleTables(), [[], [[], [period]]]);
  }

  /** An unchanged period decodes to Math with Park, not replaced. */
  lemma UnchangedExample()
    ensures ExampleTimetable(3005) ==
      Ok([[], [[], [[], [Period(1, "Math", "Park", false, None)]]]])
  {
    assert LectureOf(1, 3005, ExampleTables()) == Ok(Lecture(1, "Math", "Park"));
    assert CurrentCode(Week(1, [[1, 3005]]), 1, 1) == Ok(3005);
    ExampleDecodes(3005, Period(1, "Math", "Park", false, None));
  }

  /** Science with Lee in place of Math with Park is a replacement that
      remembers Math with Park. */
  lemma SubstitutedExample()
    ensures ExampleTimetable(4010) ==
      Ok([[], [[], [[], [Period(1, "Science", "Lee", true, Some(Lecture(1, "Math", "Park")))]]]])
  {
    assert LectureOf(1, 3005, ExampleTables()) == Ok(Lecture(1, "Math", "Park"));
    assert LectureOf(1, 4010, ExampleTables()) == Ok(Lecture(1, "Science", "Lee"));
    assert CurrentCode(Week(1, [[1, 4010]]), 1, 1) == Ok(4010);
    ExampleDecodes(4010, Period(1, "Science", "Lee", true, Some(Lecture(1, "Math", "Park"))));
  }

  /** A cancelled period is empty, replaced, and remembers Math with Park. */
  lemma CancelledExample()
    ensures ExampleTimetable(0) ==
      Ok([[], [[], [[], [Period(1, "", "", true, Some(Lecture(1, "Math", "Park")))]]]])
  {
    assert LectureOf(1, 3005, ExampleTables()) == Ok(Lecture(1, "Math", "Park"));
    assert LectureOf(1, 0, ExampleTables()) == Ok(Lecture(1, "", ""));
    assert CurrentCode(Week(1, [[1, 0]]), 1, 1) == Ok(0);
    ExampleDecodes(0, Period(1, "", "", true, Some(Lecture(1, "Math", "Park"))));
  }
}

=== FILE: school.dfy ===
/**
 Choosing one school among the records a school-name search returned. The
 search itself is a network call; its answer enters here as a list of
 records.
 */
module SchoolSearch {
  import opened Runtime

  /** One search hit, the list `[region_code, region_name, school_name, school_code]`. */
  datatype SchoolRecord = SchoolRecord(regionCode: int, regionName: string, schoolName: string, schoolCode: int)

  /** What the lookup returns: the chosen school's region code, name and
      code, or one of the two markers its caller turns into errors. */
  datatype Choice =
    | Chosen(regionCode: int, schoolName: string, schoolCode: int)
    | NoMatch     // several records and none matches the given codes
    | NoResults   // the search found nothing

  /** The triple returned for a record: its region code, school name and school code. */
  function Pick(record: SchoolRecord): Choice
  {
    Chosen(record.regionCode, record.schoolName, record.schoolCode)
  }

  /** The first component of the returned triple, which the caller inspects:
      the markers read as -1 (no match) and -2 (nothing found). */
  function LocalCode(choice: Choice): int
  {
    match choice
    case Chosen(regionCode, _, _) => regionCode
    case NoMatch => -1
    case NoResults => -2
  }

  /** The position of the first record that satisfies `matches`, if any. */
  function FirstWhere(records: seq<SchoolRecord>, matches: SchoolRecord -> bool): (r: Option<nat>)
    ensures r.Some? ==> r.value < |records| && matches(records[r.value])
    ensures r.Some? ==> forall j :: 0 <= j < r.value ==> !matches(records[j])
    ensures r.None? <==> forall j :: 0 <= j < |records| ==> !matches(records[j])
  {
    if |records| == 0 then None
    else if matches(records[0]) then Some(0)
    else
      match FirstWhere(records[1..], matches)
      case None => None
      case Some(i) => Some(i + 1)
  }

  predicate HasSchoolCode(records: seq<SchoolRecord>, schoolCode: int)
  {
    exists i :: 0 <= i < |records| && records[i].schoolCode == schoolCode
  }

  predicate HasRegionCode(records: seq<SchoolRecord>, regionCode: int)
  {
    exists i :: 0 <= i < |records| && records[i].regionCode == regionCode
  }

  /** Record `i` is the first with the given school code. */
  predicate FirstWithSchoolCode(records: seq<SchoolRecord>, i: int, schoolCode: int)
  {
    && 0 <= i < |records|
    && records[i].schoolCode == schoolCode
    && forall j :: 0 <= j < i ==> records[j].schoolCode != schoolCode
  }

  /** Record `i` is the first with the given region code. */
  predicate FirstWithRegionCode(records: seq<SchoolRecord>, i: int, regionCode: int)
  {
    && 0 <= i < |records|
    && records[i].regionCode == regionCode
    && forall j :: 0 <= j < i ==> records[j].regionCode != regionCode
  }

  /** The selection rule. No record gives the "nothing found" marker and a
      single record is taken whatever the codes. Among several records, the
      first whose school code equals a non-zero `schoolCode` wins, then the
      first whose region code equals a non-zero `localCode`; failing both,
      the "no match" marker. */
  function SelectSchool(records: seq<SchoolRecord>, localCode: int, schoolCode: int): (r: Choice)
    ensures r == NoResults <==> |records| == 0
    ensures |records| == 1 ==> r == Pick(records[0])
    ensures r.Chosen? ==> exists i :: 0 <= i < |records| && r == Pick(records[i])
    ensures |records| > 1 && schoolCode != 0 ==>
      forall i :: FirstWithSchoolCode(records, i, schoolCode) ==> r == Pick(records[i])
    ensures |records| > 1 && localCode != 0 && (schoolCode == 0 || !HasSchoolCode(records, schoolCode)) ==>
      forall i :: FirstWithRegionCode(records, i, localCode) ==> r == Pick(records[i])
    ensures r == NoMatch <==>
      && |records| > 1
      && (schoolCode == 0 || !HasSchoolCode(records, schoolCode))
      && (localCode == 0 || !HasRegionCode(records, localCode))
  {
    if |records| == 0 then NoResults
    else if |records| > 1 then
      var bySchool := if schoolCode != 0 then FirstWhere(records, (record: SchoolRecord) => record.schoolCode == schoolCode) else None;
      if bySchool.Some? then Pick(records[bySchool.value])
      else
        var byRegion := if localCode != 0 then FirstWhere(records, (record: SchoolRecord) => record.regionCode == localCode) else None;
        if byRegion.Some? then Pick(records[byRegion.value]) else NoMatch
    else Pick(records[0])
  }

  /** The caller's checks: "no match" and "nothing found" become errors, and
      so does a chosen record whose region code happens to equal a marker. */
  function CheckChoice(choice: Choice): (r: Result<Choice>)
    ensures r.Ok? ==> choice.Chosen? && r.value == choice
    ensures choice == NoMatch ==> r == Err(SeveralSchools)
    ensures choice == NoResults ==> r == Err(SchoolNotFound)
    ensures choice.Chosen? ==> (r.Ok? <==> choice.regionCode != -1 && choice.regionCode != -2)
    ensures choice.Chosen? && choice.regionCode == -1 ==> r == Err(SeveralSchools)
    ensures choice.Chosen? && choice.regionCode == -2 ==> r == Err(SchoolNotFound)
  {
    if LocalCode(choice) == -1 then Err(SeveralSchools)
    else if LocalCode(choice) == -2 then Err(SchoolNotFound)
    else Ok(choice)
  }
}

=== FILE: timetable.dfy ===
/**
 The timetable constructor: checks the week number, selects the school,
 decodes the snapshot the server sent for it and builds the homeroom roster.
 The two network requests are parameters: the records the school-name
 search returned, and the snapshot the server returns for a school code and
 week number.
 */
module TimeTables {
  import opened Runtime
  import opened Lectures
  import opened Schedule
  import opened Homeroom
  import opened SchoolSearch

  /** The decoded JSON payload for one school and week, its symbolic field
      names already resolved. */
  datatype Snapshot = Snapshot(
    regionName: string,
    schoolYear: int,
    startDate: string,
    dayTime: seq<string>,
    updateDate: string,
    teachers: seq<string>,
    subjects: seq<string>,
    current: Grid,
    original: Grid,
    homerooms: seq<seq<int>>)

  /** A constructed timetable object. */
  datatype TimeTable = TimeTable(
    schoolCode: int,
    schoolName: string,
    localCode: int,
    localName: string,
    schoolYear: int,
    startDate: string,
    dayTime: seq<string>,
    updateDate: string,
    timetable: Timetable,
    homeroomTeachers: seq<seq<string>>)

  /** The week number must be 0 (this week) or 1 (next week). */
  function CheckWeek(weekNum: int): (r: Result<int>)
    ensures r.Ok? <==> weekNum == 0 || weekNum == 1
    ensures r.Ok? ==> r.value == weekNum
    ensures r.Err? ==> r.error == InvalidWeek
  {
    if weekNum != 0 && weekNum != 1 then Err(InvalidWeek) else Ok(weekNum)
  }

  /** The snapshot's name tables with entry 0 of each cleared, or the
      IndexError clearing raises on an empty table. */
  function SnapshotTables(snapshot: Snapshot): Result<Tables>
  {
    NormalizeTables(snapshot.subjects, snapshot.teachers)
  }

  /** Decodes a snapshot: clears entry 0 of both name tables, builds the
      timetable and then the homeroom roster, against the cleared tables. */
  function Decode(snapshot: Snapshot): (r: Result<(Timetable, seq<seq<string>>)>)
    ensures r.Ok? <==>
      && |snapshot.subjects| > 0 && |snapshot.teachers| > 0
      && DecodeTimetable(snapshot.current, snapshot.original, SnapshotTables(snapshot).value).Ok?
      && Rosters(snapshot.homerooms, SnapshotTables(snapshot).value.teachers).Ok?
    ensures r.Ok? ==>
      && DecodeTimetable(snapshot.current, snapshot.original, SnapshotTables(snapshot).value) == Ok(r.value.0)
      && Rosters(snapshot.homerooms, SnapshotTables(snapshot).value.teachers) == Ok(r.value.1)
    ensures r.Err? ==> r.error == IndexError
  {
    var tables :- SnapshotTables(snapshot);
    var timetable :- DecodeTimetable(snapshot.current, snapshot.original, tables);
    var homerooms :- Rosters(snapshot.homerooms, tables.teachers);
    Ok((timetable, homerooms))
  }

  /** `TimeTable(school_name, local_code, school_code, week_num)`, given the
      search results for `school_name` and the server's snapshots. */
  function Open(weekNum: int, localCode: int, schoolCode: int,
                search: seq<SchoolRecord>, fetch: (int, int) -> Snapshot): (r: Result<TimeTable>)
    ensures weekNum != 0 && weekNum != 1 ==> r == Err(InvalidWeek)
    ensures (weekNum == 0 || weekNum == 1) && |search| == 0 ==> r == Err(SchoolNotFound)
    ensures (weekNum == 0 || weekNum == 1) && SelectSchool(search, localCode, schoolCode) == NoMatch ==>
      r == Err(SeveralSchools)
    ensures r.Ok? ==> weekNum == 0 || weekNum == 1
    ensures CheckWeek(weekNum).Ok? && CheckChoice(SelectSchool(search, localCode, schoolCode)).Ok? && r.Err? ==>
      r.error == IndexError
    ensures r.Ok? <==>
      && CheckWeek(weekNum).Ok?
      && CheckChoice(SelectSchool(search, localCode, schoolCode)).Ok?
      && Decode(fetch(SelectSchool(search, localCode, schoolCode).schoolCode, weekNum)).Ok?
    ensures r.Ok? ==>
      SelectSchool(search, localCode, schoolCode) == Chosen(r.value.localCode, r.value.schoolName, r.value.schoolCode)
    ensures r.Ok? ==>
      (exists i :: 0 <= i < |search| && Pick(search[i]) == Chosen(r.value.localCode, r.value.schoolName, r.value.schoolCode))
    ensures r.Ok? ==>
      var snapshot := fetch(r.value.schoolCode, weekNum);
      && r.value.localName == snapshot.regionName
      && r.value.schoolYear == snapshot.schoolYear
      && r.value.startDate == snapshot.startDate
      && r.value.dayTime == snapshot.dayTime
      && r.value.updateDate == snapshot.updateDate
      && Decode(snapshot) == Ok((r.value.timetable, r.value.homeroomTeachers))
  {
    var _ :- CheckWeek(weekNum);
    var choice :- CheckChoice(SelectSchool(search, localCode, schoolCode));
    var snapshot := fetch(choice.schoolCode, weekNum);
    var decoded :- Decode(snapshot);
    Ok(TimeTable(
      choice.schoolCode, choice.schoolName, choice.regionCode,
      snapshot.regionName, snapshot.schoolYear, snapshot.startDate, snapshot.dayTime, snapshot.updateDate,
      decoded.0, decoded.1))
  }

  /** `homeroom(grade, cls)` of a constructed timetable: entry
      `[grade - 1][cls - 1]` of its roster, with Python's indexing. */
  function HomeroomOf(table: TimeTable, grade: int, cls: int): (r: Result<string>)
    ensures var roster := table.homeroomTeachers;
      1 <= grade <= |roster| && 1 <= cls <= |roster[grade - 1]| ==> r == Ok(roster[grade - 1][cls - 1])
    ensures var roster := table.homeroomTeachers;
      1 <= grade <= |roster| && cls > |roster[grade - 1]| ==> r == Err(IndexError)
    ensures var roster := table.homeroomTeachers;
      1 <= grade <= |roster| && 1 - |roster[grade - 1]| <= cls <= 0 ==>
        r == Ok(roster[grade - 1][|roster[grade - 1]| + cls - 1])
    ensures var roster := table.homeroomTeachers;
      1 <= grade <= |roster| && cls < 1 - |roster[grade - 1]| ==> r == Err(IndexError)
    ensures grade > |table.homeroomTeachers| ==> r == Err(IndexError)
  {
    HomeroomTeacher(table.homeroomTeachers, grade, cls)
  }

  /** The homeroom teacher of a constructed timetable: for a class before its
      grade's first sentinel, the teacher its code names in the cleared
      teacher table; for a class at or after the sentinel, an IndexError. */
  lemma OpenedHomeroom(weekNum: int, localCode: int, schoolCode: int,
                       search: seq<SchoolRecord>, fetch: (int, int) -> Snapshot,
                       grade: int, cls: int)
    requires Open(weekNum, localCode, schoolCode, search, fetch).Ok?
    requires var snapshot := fetch(Open(weekNum, localCode, schoolCode, search, fetch).value.schoolCode, weekNum);
      1 <= grade <= |snapshot.homerooms| && cls >= 1
    ensures var table := Open(weekNum, localCode, schoolCode, search, fetch).value;
      var snapshot := fetch(table.schoolCode, weekNum);
      var codes := snapshot.homerooms[grade - 1];
      && |snapshot.teachers| > 0
      && (cls <= Live(codes) ==>
            HomeroomOf(table, grade, cls) == Index(snapshot.teachers[0 := ""], codes[cls - 1]))
      && (cls > Live(codes) ==> HomeroomOf(table, grade, cls) == Err(IndexError))
  {
    var table := Open(weekNum, localCode, schoolCode, search, fetch).value;
    var snapshot := fetch(table.schoolCode, weekNum);
    HomeroomOfGrid(snapshot.homerooms, SnapshotTables(snapshot).value.teachers, grade, cls);
  }
}
